=== FILE: README.md ===
# Production building economy — Dafny model

This project models one production building of a tile-based economy game.
The building has three cooperating parts:

- the **input inventory** (`BuildingInputInventory`) holds the raw-material
  slots. It pays a fixed cost of 1 unit per slot per production cycle, and
  accepts cart deliveries clamped to headroom. For each resource type it runs
  a two-state request machine, NoRequest/Requesting. The machine files a
  delivery request on the logistics board when the fill ratio falls to the
  request threshold, and retires it when the ratio reaches the fulfil
  threshold;
- the **output inventory** (`BuildingOutputInventory`) is one slot of finished
  goods. Adding clamps at capacity and taking clamps to the stock. A `_wasFull`
  latch makes its "full" and "space available" notifications edge-triggered;
- the **producer** (`ResourceProducer`) runs the per-frame production tick.
  It composes the rate as `amountPerSecond * moduleBonus * efficiency`, and
  owns the pause flag that the output's notifications toggle.

Every operation is a pure function over immutable records with exact `real`
amounts. Calls on the logistics board come back as a list of
`LogisticsCall`s (`CreateCall`/`FulfillCall`). The output's notifications come
back as `Signal`s (`BecameFull`/`SpaceAvailable`), and the producer receives
them in the same call that raised them. `Facility` composes the three parts:
a frame runs the producer tick and then the request machine, and carts call
`Deliver`, `Collect` and `CollectAll`.

Files: `storage.dfy` (shared types), `input_buffer.dfy`, `output_buffer.dfy`,
`producer.dfy`, `facility.dfy`.

The model follows the code in these respects:

- the cost per cycle is the hard-coded constant 1, paid once per frame
  whatever the frame length, while production is scaled by the frame length;
- the producer is paused by the output's "full" notification and also by the
  tick's own capacity guard;
- a "space available" notification resumes the producer immediately, inside
  the pick-up call, not on the next frame;
- nothing enforces `requestThreshold < fulfillThreshold`, and nothing stops
  two slots from sharing a type. Both lead to a request being filed and
  retired over and over (`InputBuffer.EqualThresholdsOscillate`,
  `InputBuffer.DuplicateTypesChurn`);
- the bounds `0 <= currentAmount <= maxAmount` are not clamped on every path.
  Negative amounts and consuming without a prior check can break them, so the
  bounds are proved for non-negative arguments, from the engine's own start
  (`Facility.ReachableIsBounded`) as well as from the corrected one
  (`Facility.ReachableIsCoherent`).

## Model

| member | source | states |
|---|---|---|
| InputBuffer.Initial | Economy/Storage/BuildingInputInventory.cs:27-31 | a new buffer has no active request and IsRequesting false, which is consistent bookkeeping |
| InputBuffer.CreateRequest | Economy/Storage/BuildingInputInventory.cs:67-81 | the request carries the slot's type, the buffer's priority and its root position; it becomes the only entry for that type, every other type's entry is untouched, IsRequesting becomes true, and nothing else in the buffer changes |
| InputBuffer.FulfillRequest | Economy/Storage/BuildingInputInventory.cs:83-92 | with an active request for the type, exactly that request is retired and its entry removed; without one, nothing happens; IsRequesting then equals "some request is active", and nothing else in the buffer changes |
| InputBuffer.FillRatio | Economy/Storage/BuildingInputInventory.cs:52 | the ratio times the capacity is the current amount, and a slot within its bounds has a ratio in [0, 1] |
| InputBuffer.RequestFor | Economy/Storage/BuildingInputInventory.cs:70-75 | a new request carries the slot's type, the buffer's priority and its root grid position |
| InputBuffer.SlotStep | Economy/Storage/BuildingInputInventory.cs:49-64 | at most one call per slot; a create happens iff no request is active and fill <= request threshold; a retire happens iff one is active and fill >= fulfil threshold; only the request bookkeeping ever changes |
| InputBuffer.UpdateSlots | Economy/Storage/BuildingInputInventory.cs:49-64 | the loop makes no more calls than there are slots and changes only the request bookkeeping; after any call IsRequesting equals "the map is non-empty"; it keeps requests well-formed |
| InputBuffer.Update | Economy/Storage/BuildingInputInventory.cs:44-65 | without a logistics board the frame is a no-op (and then no slot needs a capacity); otherwise the stock is untouched, IsRequesting tracks the map after any call, and well-formed bookkeeping stays well-formed |
| InputBuffer.CreateKeepsBoard | Economy/Storage/BuildingInputInventory.cs:67-81 | filing a request for a type with none outstanding puts it on the board exactly once, and the bookkeeping stays well-formed |
| InputBuffer.FulfillKeepsBoard | Economy/Storage/BuildingInputInventory.cs:83-92 | retiring a type's outstanding request removes its only copy from the board, and the bookkeeping stays well-formed |
| InputBuffer.SlotStepKeepsBoard | Economy/Storage/BuildingInputInventory.cs:51-62 | if the board held exactly the active requests before a slot step, it does after the step, and well-formed bookkeeping stays well-formed |
| InputBuffer.UpdateSlotsKeepsBoard | Economy/Storage/BuildingInputInventory.cs:49-64 | the same board correspondence holds across the whole slot loop |
| InputBuffer.UpdateKeepsBoard | Economy/Storage/BuildingInputInventory.cs:44-92 | after any frame the board still holds exactly the buffer's active requests, each once: a create is issued only for a type with none outstanding, and a retire removes the only one |
| InputBuffer.AtMostOneRequestPerType | Economy/Storage/BuildingInputInventory.cs:27 | a board that mirrors the buffer never holds two requests of one type, nor one request twice |
| InputBuffer.QuietIffSettled | Economy/Storage/BuildingInputInventory.cs:55-63 | a slot step makes no call exactly when the type sits inside its hysteresis band: requesting below the fulfil threshold, or idle above the request threshold |
| InputBuffer.SlotStepSettles | Economy/Storage/BuildingInputInventory.cs:55-63 | with request threshold < fulfil threshold, one step always leaves the type settled |
| InputBuffer.UpdateSlotsFrame | Economy/Storage/BuildingInputInventory.cs:49-64 | the loop never changes whether a type it does not visit has a request |
| InputBuffer.UpdateSlotsSettles | Economy/Storage/BuildingInputInventory.cs:49-64 | with distinct slot types and a strict band, after the loop every slot is settled |
| InputBuffer.SettledSlotsAreQuiet | Economy/Storage/BuildingInputInventory.cs:49-64 | if every slot is settled, the loop makes no call and changes nothing |
| InputBuffer.UpdateIsIdempotent | Economy/Storage/BuildingInputInventory.cs:44-65 | no oscillation: with distinct types and a strict band, a second frame on the same stock makes no call and changes nothing |
| InputBuffer.HysteresisScenario | Economy/Storage/BuildingInputInventory.cs:18-22 | at 0.25/0.80 on 100 units, 30 is quiet, 24 files one request, 49 and 79 stay quiet, 81 retires it, and a drop to 24 in the state that retire left files a fresh one |
| InputBuffer.EqualThresholdsOscillate | Economy/Storage/BuildingInputInventory.cs:55-63 | with both thresholds at 0.5 and the slot half full, frames alternate between filing and retiring |
| InputBuffer.DuplicateTypesChurn | Economy/Storage/BuildingInputInventory.cs:49-64 | two slots of one type, one nearly empty and one nearly full, file and retire the shared request within every frame |
| InputBuffer.HasEnoughResources | Economy/Storage/BuildingInputInventory.cs:99-112 | true iff every slot holds at least one cycle's cost (1 unit); an empty slot list is enough |
| InputBuffer.HasEnoughFrom | Economy/Storage/BuildingInputInventory.cs:104-111 | the early-return scan is true iff no slot is below the cost |
| InputBuffer.ConsumeResources | Economy/Storage/BuildingInputInventory.cs:118-127 | every slot loses exactly one unit, without clamping; nothing else changes |
| InputBuffer.ConsumeFrom | Economy/Storage/BuildingInputInventory.cs:123-126 | the per-slot subtraction keeps the slot order and types |
| InputBuffer.ConsumeAfterCheckKeepsBounded | Economy/Storage/BuildingInputInventory.cs:99-127 | consuming after a successful check leaves every slot within [0, max] |
| InputBuffer.FirstSlotOf | Economy/Storage/BuildingInputInventory.cs:135-137 | finds the first slot of the type, or reports that none holds it |
| InputBuffer.AddResource | Economy/Storage/BuildingInputInventory.cs:133-151 | an unknown type returns 0 and changes nothing; otherwise only the first matching slot changes; it gains `min(amount, headroom)`, or 0 when there is no headroom, and that is what is returned |
| InputBuffer.AddResourceKeepsBounded | Economy/Storage/BuildingInputInventory.cs:139-147 | a non-negative delivery keeps every slot within [0, max] and accepts between 0 and the amount offered |
| OutputBuffer.Initial | Economy/Storage/BuildingOutputInventory.cs:12 | the engine's start: the latch is clear whatever the configured stock |
| OutputBuffer.InitialLatched | Economy/Storage/BuildingOutputInventory.cs:12 | the corrected start: the latch is set exactly when the configured stock is at capacity |
| OutputBuffer.AddResource | Economy/Storage/BuildingOutputInventory.cs:25-39 | the stock never exceeds capacity, is exactly capacity once the sum reaches it, and otherwise is the sum; "full" is returned only on the clear-to-set transition of the latch; type and capacity are unchanged |
| OutputBuffer.TakeResource | Economy/Storage/BuildingOutputInventory.cs:45-58 | takes exactly `min(request, stock)` and lowers the stock by it; it stays non-negative for non-negative arguments; "space available" is returned only when a set latch clears because the stock fell below capacity |
| OutputBuffer.TakeAllResources | Economy/Storage/BuildingOutputInventory.cs:71-74 | returns the whole stock and leaves 0 |
| OutputBuffer.HasSpace | Economy/Storage/BuildingOutputInventory.cs:17-20 | the stock is below capacity; `HasSpaceIffUnlatched` relates it to the latch |
| OutputBuffer.HasAtLeastOneUnit | Economy/Storage/BuildingOutputInventory.cs:63-66 | at least one unit is on hand; `HasAtLeastOneUnitIffFullPickup` relates it to a one-unit pick-up |
| OutputBuffer.GetResourceType | Economy/Storage/BuildingOutputInventory.cs:79-82 | the slot's resource type; `ResourceTypeIsStable` and `Facility.RunAnyKeepsOutputType` show no operation changes it |
| OutputBuffer.HasSpaceIffUnlatched | Economy/Storage/BuildingOutputInventory.cs:17-20 | under the exact latch, HasSpace is "latch clear" |
| OutputBuffer.HasAtLeastOneUnitIffFullPickup | Economy/Storage/BuildingOutputInventory.cs:63-66 | HasAtLeastOneUnit holds iff a one-unit pick-up gets a whole unit |
| OutputBuffer.AddResourceKeepsValid | Economy/Storage/BuildingOutputInventory.cs:25-39 | a non-negative add keeps the stock within [0, max] and "latch set implies at capacity", and keeps an exact latch exact |
| OutputBuffer.TakeResourceKeepsValid | Economy/Storage/BuildingOutputInventory.cs:45-58 | the same for a non-negative take |
| OutputBuffer.TakeThenAddRestores | Economy/Storage/BuildingOutputInventory.cs:25-58 | taking some of the stock and adding it back restores stock and latch exactly |
| OutputBuffer.Step | Economy/Storage/BuildingOutputInventory.cs:25-74 | any operation raises at most one notification, exactly when the latch flips, and its kind is fixed by the latch's prior state |
| OutputBuffer.RunAlternates | Economy/Storage/BuildingOutputInventory.cs:33-55 | over any sequence of operations the notifications alternate full / space available, starting from what the latch allows, and the latch flips once per notification |
| OutputBuffer.RunKeepsValid | Economy/Storage/BuildingOutputInventory.cs:25-74 | non-negative operation sequences keep "latch set implies at capacity" and the stock bounds |
| OutputBuffer.AddsWhileFullAreSilent | Economy/Storage/BuildingOutputInventory.cs:33-37 | any number of non-negative adds to a latched buffer raise nothing |
| OutputBuffer.AddAll | Economy/Storage/BuildingOutputInventory.cs:25 | one add operation per amount, in order |
| OutputBuffer.ResourceTypeIsStable | Economy/Storage/BuildingOutputInventory.cs:79-82 | no sequence of operations changes the resource type or capacity that GetResourceType reports |
| Producer.Initial | Economy/Systems/ResourceProducer.cs:15-27 | a new producer runs with module bonus 1.0 and efficiency 1.0, and both pause flags are false |
| Producer.UpdateProductionRate | Economy/Systems/ResourceProducer.cs:83-87 | only the module bonus changes |
| Producer.ModuleBonusFromLatestCount | Economy/Systems/ResourceProducer.cs:83-87 | the bonus depends only on the latest module count; it is 1 with no modules, and each extra module adds the per-module rate |
| Producer.RateMonotoneInModules | Economy/Systems/ResourceProducer.cs:73 | with non-negative inputs, more modules never lower the effective rate |
| Producer.RateCompositionExample | Economy/Systems/ResourceProducer.cs:73 | base 10, two modules at 0.25 and efficiency 0.5 give 7.5 units per second |
| Producer.SetEfficiency | Economy/Systems/ResourceProducer.cs:91-95 | only the efficiency changes |
| Producer.GetEfficiency | Economy/Systems/ResourceProducer.cs:96 | the current efficiency multiplier; `EfficiencyRoundTrip` shows it returns the last value set |
| Producer.EffectiveRate | Economy/Systems/ResourceProducer.cs:73 | base rate times module bonus times efficiency; `RateCompositionExample` and `RateMonotoneInModules` pin its value and monotonicity |
| Producer.EfficiencyRoundTrip | Economy/Systems/ResourceProducer.cs:91-96 | GetEfficiency returns the last value set, unclamped; the last set wins, and setting the current value is a no-op |
| Producer.PauseProduction | Economy/Systems/ResourceProducer.cs:101-106 | afterwards paused; nothing else changes |
| Producer.ResumeProduction | Economy/Systems/ResourceProducer.cs:108-113 | afterwards running; nothing else changes |
| Producer.PauseResumeIdempotent | Economy/Systems/ResourceProducer.cs:101-113 | pausing or resuming twice equals doing it once, and is a no-op when already in that state |
| Producer.OnSignal | Economy/Systems/ResourceProducer.cs:42-43 | a "full" notification leaves the producer paused and a "space available" one leaves it running; nothing but the flag changes |
| Producer.OnSignals | Economy/Systems/ResourceProducer.cs:42-43 | delivered notifications change only the pause flag, and the last one decides it |
| Producer.Update | Economy/Systems/ResourceProducer.cs:56-76 | paused or missing a collaborator: no change; input-starved: no change and no pause; output without space: pause only, nothing consumed; otherwise one unit leaves every slot, `rate * dt` is added (clamped at capacity), the output's type and capacity stay, the output latch ends set iff it was set or the sum reached capacity, "full" is raised iff the sum reached capacity with the latch clear, and the producer is paused iff "full" was raised; the tick never clears the flag and sets it only through the guard or "full" |
| Producer.PublicPropertyNeverAssigned | Economy/Systems/ResourceProducer.cs:27 | the public IsPaused property stays false through ticks, notifications and modifier changes |
| Facility.InitialAsWritten | Economy/Storage/BuildingOutputInventory.cs:12 | as the engine starts a building: the input, the producer and the output slot are the configured ones, the output latch is clear and the producer runs; a valid configuration gives the latch-free building invariant |
| Facility.Initial | Economy/Storage/BuildingOutputInventory.cs:12 | the corrected start: the input, the producer and the output slot are the configured ones, and a valid configuration gives the full building invariant, latch included |
| Facility.Tick | Economy/Systems/ResourceProducer.cs:56-76 | a frame is the production tick followed by the request machine on the stock production left: producer, output and signals are the tick's, the input and the board calls are the request machine's; it never wakes a paused producer and then never touches its output; it never writes IsPaused; it files no request without an input buffer or a board |
| Facility.Deliver | Economy/Storage/BuildingInputInventory.cs:133-151 | a drop-off accepts what the input's AddResource accepts, leaves the input as AddResource does, raises no signal and touches neither output nor producer |
| Facility.Collect | Economy/Storage/BuildingOutputInventory.cs:45-58 | a pick-up hands over `min(amount, stock)`, leaves the output and raises the signals as TakeResource does, touches no input, and the producer changes only in its flag, ending paused iff it was paused and no "space available" was raised |
| Facility.CollectAll | Economy/Storage/BuildingOutputInventory.cs:71-74 | a full pick-up hands over the whole stock, leaves it empty with the latch and signals TakeAllResources gives, touches no input, and the producer ends paused iff it was paused and no "space available" was raised |
| Facility.TickKeepsCoherent | Economy/Systems/ResourceProducer.cs:56-76 | a frame of non-negative length keeps the latch-free building invariant, and the full one when it held |
| Facility.DeliverKeepsCoherent | Economy/Storage/BuildingInputInventory.cs:133-151 | a non-negative drop-off keeps the latch-free building invariant, and the full one when it held |
| Facility.CollectKeepsCoherent | Economy/Storage/BuildingOutputInventory.cs:45-58 | a non-negative pick-up keeps the latch-free building invariant, and the full one when it held |
| Facility.CollectAllKeepsCoherent | Economy/Storage/BuildingOutputInventory.cs:71-74 | a full pick-up keeps the latch-free building invariant, and the full one when it held |
| Facility.ApplyKeepsCoherent | Economy/Systems/ResourceProducer.cs:83-95 | every admissible action, including module and efficiency changes, keeps the latch-free building invariant, and the full one when it held |
| Facility.Run | Economy/Systems/ResourceProducer.cs:56-76 | any admissible sequence of actions keeps the latch-free building invariant, and the full one when the start had it |
| Facility.ReachableIsCoherent | Economy/Systems/ResourceProducer.cs:56-76 | from the corrected start of a valid configuration, every reachable building has every slot within [0, max] and a paused producer with its output latch set |
| Facility.ReachableIsBounded | Economy/Systems/ResourceProducer.cs:56-76 | from the engine's own start of a valid configuration, even with the output at capacity, every reachable building has every slot within [0, max] and the output latch set only at capacity |
| Facility.ApplyKeepsBoard | Economy/Storage/BuildingInputInventory.cs:44-151 | with well-formed bookkeeping, if the board held exactly the buffer's active requests, it still does after any action and the calls it made: only a frame's request machine touches the request bookkeeping |
| Facility.RunKeepsBoard | Economy/Storage/BuildingInputInventory.cs:44-92 | the same correspondence holds across any admissible run from a building with the latch-free invariant, folding every frame's calls into the board in order |
| Facility.ReachableBoardMirrors | Economy/Storage/BuildingInputInventory.cs:27 | from the engine's start or the corrected one and an empty board, every reachable building has exactly its active requests on the board, so no type is requested twice and no request is outstanding twice |
| Facility.CollectResumesPausedProducer | Economy/Systems/ResourceProducer.cs:108-113 | in a coherent building, any positive pick-up raises "space available" and resumes a paused producer |
| Facility.ReachablePausedResumes | Economy/Storage/BuildingOutputInventory.cs:51-55 | from the corrected start, a paused producer always wakes on a positive pick-up |
| Facility.CoherentIsNotStuck | Economy/Systems/ResourceProducer.cs:63-67 | a coherent building is never paused with a clear latch |
| Facility.ApplyKeepsInputReady | Economy/Storage/BuildingInputInventory.cs:133-151 | no action adds or removes the input buffer or a slot, or changes any slot's capacity, so the request machine's capacity precondition survives |
| Facility.RunAny | Economy/Systems/ResourceProducer.cs:56-76 | any sequence of actions keeps input capacities positive |
| Facility.ApplyKeepsOutputType | Economy/Storage/BuildingOutputInventory.cs:25-82 | no frame, delivery, pick-up or modifier change alters the output buffer's resource type or capacity; only its amount and latch are written |
| Facility.RunAnyKeepsOutputType | Economy/Storage/BuildingOutputInventory.cs:79-82 | over any sequence of actions, GetResourceType keeps returning the configured product and the capacity is fixed |
| Facility.StuckStaysStuck | Economy/Storage/BuildingOutputInventory.cs:51-55 | paused with a clear latch, every action leaves the building stuck, and frames produce nothing |
| Facility.StuckForever | Economy/Storage/BuildingOutputInventory.cs:51-55 | once stuck, no sequence of actions ever resumes the producer |
| Facility.StartsFull | Economy/Storage/BuildingOutputInventory.cs:6 | an iron-to-planks configuration whose plank store starts full is valid |
| Facility.StartFullStallsAsWritten | Economy/Systems/ResourceProducer.cs:63-67 | as written, that building pauses on frame one, a pick-up frees space without waking it, and it stays stuck under any later actions |
| Facility.StartFullRecovers | Economy/Systems/ResourceProducer.cs:63-67 | with the corrected start, the same building pauses, wakes on the pick-up, and produces 1 unit from 1 iron on the next frame |

## Left out

- The game-engine lifecycle is not modelled: component lookup, `Start`/`Awake`/`OnDestroy`, inspector attributes, and the (un)subscription of the notification handlers. A collaborator missing at start-up is a `None` field. The single subscription is modelled by handing the returned signals to the producer.
- `Debug.Log`/`Debug.LogError` are logging only and are left out.
- The logistics board's internals are not modelled. The buffer's calls on it are returned as data, and `InputBuffer.Board` is a reference model of its outstanding requests.
- A request's owner reference is implicit. Each model buffer emits only its own requests.
- The building's root grid position is an opaque coordinate copied into each request.
- The frame length is an explicit parameter `dt`. The invariant lemmas require `dt >= 0`.
- Single-precision float rounding is not modelled, and neither is `float.MaxValue`. Amounts are exact reals, and `TakeAllResources` takes the whole stock.
- The input request machine requires a positive capacity in every slot when a logistics board is present, because the fill-ratio division is otherwise undefined in exact arithmetic.
- The resource-type enumeration, `StorageData`, `ResourceRequest` and `ResourceProductionData` are reduced to the fields the code uses.
- Facility.Tick: Unity does not fix the order of component updates on one object. The model runs the producer first and the request machine second; the opposite order would only change which stock the request machine sees in that frame.

## Findings

| source | as written | input that shows it | evidently intended | confidence | as-written member | corrected member |
|---|---|---|---|---|---|---|
| Economy/Storage/BuildingOutputInventory.cs:12 | `_wasFull` starts false whatever the configured output stock. The tick's capacity guard (Economy/Systems/ResourceProducer.cs:63-67) pauses the producer without setting the latch, so a later `TakeResource` raises no "space available". | Output configured at 10 of 10 and input iron at 5 of 10: frame 1 pauses, a pick-up of 5 frees space, and the producer stays paused for every later action | a pause always has a matching latch, so freeing space resumes production; the latch starts set when the stock starts at capacity | medium; not executed | Facility.StartFullStallsAsWritten | Facility.ReachablePausedResumes |

=== FILE: facility.dfy ===
/**
 One production building: an input buffer, an output buffer and a producer
 on the same entity, plus the calls delivery carts make on it.

 A frame runs the producer's Update and then the input buffer's request
 Update. The output buffer's notifications reach the producer within the
 same call that raises them. A collaborator that was missing at start-up
 stays `None`.
 */
module Facility {
  import opened Storage
  import InputBuffer
  import OutputBuffer
  import Producer

  datatype Facility = Facility(
    input: Option<InputBuffer.InputInventory>,
    output: Option<OutputBuffer.OutputInventory>,
    producer: Producer.ProducerState)

  /** What a building is configured with before its first frame. */
  datatype Config = Config(
    inputSlots: Option<seq<Slot>>,
    priority: int,
    requestThreshold: real,
    fulfillThreshold: real,
    position: GridPos,
    hasLogistics: bool,
    outputSlot: Option<Slot>,
    productionData: Option<Producer.ProductionData>,
    productionPerModule: real)

  /** A frame's or a cart call's result: the building, the calls made on the
      logistics board and the notifications the output buffer raised. */
  datatype Outcome = Outcome(
    facility: Facility,
    calls: seq<InputBuffer.LogisticsCall>,
    signals: seq<OutputBuffer.Signal>)

  datatype Transfer = Transfer(facility: Facility, amount: real, signals: seq<OutputBuffer.Signal>)

  function InputOf(c: Config): Option<InputBuffer.InputInventory> {
    match c.inputSlots
    case None => None
    case Some(slots) =>
      Some(InputBuffer.Initial(slots, c.priority, c.requestThreshold, c.fulfillThreshold, c.position, c.hasLogistics))
  }

  function ProducerOf(c: Config): Producer.ProducerState {
    Producer.Initial(c.productionData, c.productionPerModule)
  }

  /** The building as the engine starts it: the output latch is cleared even
      when the configured stock is already at capacity. */
  function InitialAsWritten(c: Config): (f: Facility)
    ensures f.input == InputOf(c) && f.producer == ProducerOf(c)
    ensures f.output.Some? <==> c.outputSlot.Some?
    ensures f.output.Some? ==> f.output.value.outputResource == c.outputSlot.value
    ensures f.output.Some? ==> !f.output.value.wasFull
    ensures !f.producer.paused
    ensures ValidConfig(c) ==> Sound(f)
  {
    Facility(InputOf(c), if c.outputSlot.Some? then Some(OutputBuffer.Initial(c.outputSlot.value)) else None,
             ProducerOf(c))
  }

  /** The building with the output latch set from the configured stock. */
  function Initial(c: Config): (f: Facility)
    requires ValidConfig(c)
    ensures f.input == InputOf(c) && f.producer == ProducerOf(c)
    ensures f.output.Some? <==> c.outputSlot.Some?
    ensures f.output.Some? ==> f.output.value.outputResource == c.outputSlot.value
    ensures Coherent(f)
    ensures !f.producer.paused
  {
    Facility(InputOf(c), if c.outputSlot.Some? then Some(OutputBuffer.InitialLatched(c.outputSlot.value)) else None,
             ProducerOf(c))
  }

  predicate ValidConfig(c: Config) {
    && (c.inputSlots.Some? ==> AllHaveCapacity(c.inputSlots.value) && AllBounded(c.inputSlots.value))
    && (c.outputSlot.Some? ==> HasCapacity(c.outputSlot.value) && Bounded(c.outputSlot.value))
    && (c.productionData.Some? ==> c.productionData.value.amountPerSecond >= 0.0)
  }

  /** Production can only add to the output. */
  predicate NonNegativeRate(p: Producer.ProducerState) {
    && (p.productionData.Some? ==> p.productionData.value.amountPerSecond >= 0.0)
    && p.currentModuleBonus >= 0.0
    && p.efficiencyModifier >= 0.0
  }

  /** The request machine can run: every slot it divides by has a capacity. */
  predicate InputReady(f: Facility) {
    f.input.Some? && f.input.value.hasLogistics ==> AllHaveCapacity(f.input.value.requiredResources)
  }

  /** The building-wide invariant that holds from the engine's own start:
      stocks in bounds, request bookkeeping consistent, the output latch set
      only at capacity, and production that can only add. */
  predicate Sound(f: Facility) {
    && InputReady(f)
    && (f.input.Some? ==> AllBounded(f.input.value.requiredResources)
                          && InputBuffer.RequestsWellFormed(f.input.value))
    && (f.output.Some? ==> OutputBuffer.Valid(f.output.value))
    && NonNegativeRate(f.producer)
  }

  /** Sound, with the output latch exact and a paused producer always backed
      by a set latch (so a later pick-up can wake it). */
  predicate Coherent(f: Facility) {
    && Sound(f)
    && (f.output.Some? ==> OutputBuffer.LatchExact(f.output.value)
                           && (f.producer.paused ==> f.output.value.wasFull))
  }

  // ---------------------------------------------------------------------
  // Operations

  /** One frame: produce, then run the request machine on the updated stock. */
  function Tick(f: Facility, dt: real): (r: Outcome)
    requires InputReady(f)
    ensures InputReady(r.facility)
    // the producer and the output are the production tick's; the request
    // machine then runs on the stock left after production
    ensures var produced := Producer.Update(f.producer, f.input, f.output, dt);
            && r.facility.producer == produced.producer
            && r.facility.output == produced.output
            && r.signals == produced.signals
            && (produced.input.None? ==> r.facility.input.None? && r.calls == [])
            && (produced.input.Some? ==>
                  && r.facility.input == Some(InputBuffer.Update(produced.input.value).inv)
                  && r.calls == InputBuffer.Update(produced.input.value).calls)
    ensures f.producer.paused ==> r.facility.producer.paused && r.facility.output == f.output
    ensures r.facility.producer.isPausedProperty == f.producer.isPausedProperty
    ensures f.input.None? ==> r.calls == []
    ensures f.input.Some? && !f.input.value.hasLogistics ==> r.calls == []
  {
    var produced := Producer.Update(f.producer, f.input, f.output, dt);
    assert produced.input.Some? && produced.input.value.hasLogistics ==> AllHaveCapacity(produced.input.value.requiredResources);
    match produced.input
    case None => Outcome(Facility(None, produced.output, produced.producer), [], produced.signals)
    case Some(inv) =>
      var requested := InputBuffer.Update(inv);
      Outcome(Facility(Some(requested.inv), produced.output, produced.producer), requested.calls, produced.signals)
  }

  /** A cart drops off `amount` of `t`; the building keeps what fits. */
  function Deliver(f: Facility, t: ResourceType, amount: real): (r: Transfer)
    ensures f.input.None? ==> r == Transfer(f, 0.0, [])
    ensures r.facility.output == f.output && r.facility.producer == f.producer
    ensures f.input.Some? ==> r.amount == InputBuffer.AddResource(f.input.value, t, amount).accepted
    ensures f.input.Some? ==> r.facility.input == Some(InputBuffer.AddResource(f.input.value, t, amount).inv)
    ensures r.signals == []
  {
    match f.input
    case None => Transfer(f, 0.0, [])
    case Some(inv) =>
      var added := InputBuffer.AddResource(inv, t, amount);
      Transfer(f.(input := Some(added.inv)), added.accepted, [])
  }

  /** A cart picks up to `amount` of output; a "space available" notification
      resumes the producer on the spot. */
  function Collect(f: Facility, amount: real): (r: Transfer)
    ensures f.output.None? ==> r == Transfer(f, 0.0, [])
    ensures f.output.Some? ==>
              && r.amount == Min(amount, OutputBuffer.Current(f.output.value))
              && r.facility.output == Some(OutputBuffer.TakeResource(f.output.value, amount).inv)
              && r.signals == OutputBuffer.TakeResource(f.output.value, amount).signals
              && OutputBuffer.Current(r.facility.output.value) == OutputBuffer.Current(f.output.value) - r.amount
              && (r.facility.producer.paused <==> f.producer.paused && r.signals == [])
              && r.facility.producer == f.producer.(paused := r.facility.producer.paused)
    ensures r.facility.input == f.input
  {
    match f.output
    case None => Transfer(f, 0.0, [])
    case Some(o) =>
      var taken := OutputBuffer.TakeResource(o, amount);
      Transfer(Facility(f.input, Some(taken.inv), Producer.OnSignals(f.producer, taken.signals)),
               taken.taken, taken.signals)
  }

  /** A cart empties the output buffer. */
  function CollectAll(f: Facility): (r: Transfer)
    ensures f.output.None? ==> r == Transfer(f, 0.0, [])
    ensures f.output.Some? ==>
              && r.amount == OutputBuffer.Current(f.output.value)
              && r.facility.output == Some(OutputBuffer.TakeAllResources(f.output.value).inv)
              && r.signals == OutputBuffer.TakeAllResources(f.output.value).signals
              && OutputBuffer.Current(r.facility.output.value) == 0.0
              && (r.facility.producer.paused <==> f.producer.paused && r.signals == [])
              && r.facility.producer == f.producer.(paused := r.facility.producer.paused)
    ensures r.facility.input == f.input
  {
    match f.output
    case None => Transfer(f, 0.0, [])
    case Some(o) =>
      var taken := OutputBuffer.TakeAllResources(o);
      Transfer(Facility(f.input, Some(taken.inv), Producer.OnSignals(f.producer, taken.signals)),
               taken.taken, taken.signals)
  }

  // ---------------------------------------------------------------------
  // The building-wide invariant

  lemma TickKeepsCoherent(f: Facility, dt: real)
    requires Sound(f) && dt >= 0.0
    ensures Sound(Tick(f, dt).facility)
    ensures Coherent(f) ==> Coherent(Tick(f, dt).facility)
  {
    var p := f.producer;
    var produced := Producer.Update(p, f.input, f.output, dt);
    if !Producer.Idle(p, f.input, f.output) && InputBuffer.HasEnoughResources(f.input.value) {
      var o := f.output.value;
      if !OutputBuffer.HasSpace(o) {
        if Coherent(f) {
          OutputBuffer.HasSpaceIffUnlatched(o);
        }
      } else {
        InputBuffer.ConsumeAfterCheckKeepsBounded(f.input.value);
        var rate := Producer.EffectiveRate(p);
        assert rate >= 0.0 by {
          var a := p.productionData.value.amountPerSecond;
          assert a * p.currentModuleBonus >= 0.0;
        }
        assert rate * dt >= 0.0;
        OutputBuffer.AddResourceKeepsValid(o, rate * dt);
      }
    }
  }

  lemma DeliverKeepsCoherent(f: Facility, t: ResourceType, amount: real)
    requires Sound(f) && amount >= 0.0
    ensures Sound(Deliver(f, t, amount).facility)
    ensures Coherent(f) ==> Coherent(Deliver(f, t, amount).facility)
  {
    if f.input.Some? {
      InputBuffer.AddResourceKeepsBounded(f.input.value, t, amount);
    }
  }

  lemma CollectKeepsCoherent(f: Facility, amount: real)
    requires Sound(f) && amount >= 0.0
    ensures Sound(Collect(f, amount).facility)
    ensures Coherent(f) ==> Coherent(Collect(f, amount).facility)
  {
    if f.output.Some? {
      OutputBuffer.TakeResourceKeepsValid(f.output.value, amount);
    }
  }

  lemma CollectAllKeepsCoherent(f: Facility)
    requires Sound(f)
    ensures Sound(CollectAll(f).facility)
    ensures Coherent(f) ==> Coherent(CollectAll(f).facility)
  {
    if f.output.Some? {
      OutputBuffer.TakeResourceKeepsValid(f.output.value, OutputBuffer.Current(f.output.value));
    }
  }

  /** A paused producer wakes on any pick-up that takes something. */
  lemma CollectResumesPausedProducer(f: Facility, amount: real)
    requires Coherent(f) && f.output.Some? && f.producer.paused && amount > 0.0
    ensures !Collect(f, amount).facility.producer.paused
    ensures Collect(f, amount).signals == [OutputBuffer.SpaceAvailable]
  {
  }

  // ---------------------------------------------------------------------
  // Any sequence of frames and cart calls

  datatype Action =
    | Frame(dt: real)
    | DropOff(resourceType: ResourceType, amount: real)
    | PickUp(amount: real)
    | PickUpAll
    | SetModules(moduleCount: int)
    | SetEfficiency(value: real)

  /** An action the engine and its callers can issue on a building whose
      producer can only add to its output (per-module rate `perModule`). */
  predicate Admissible(perModule: real, a: Action) {
    match a
    case Frame(dt) => dt >= 0.0
    case DropOff(_, amount) => amount >= 0.0
    case PickUp(amount) => amount >= 0.0
    case PickUpAll => true
    case SetModules(n) => 1.0 + n as real * perModule >= 0.0
    case SetEfficiency(e) => e >= 0.0
  }

  function Apply(f: Facility, a: Action): Facility
    requires InputReady(f)
  {
    match a
    case Frame(dt) => Tick(f, dt).facility
    case DropOff(t, amount) => Deliver(f, t, amount).facility
    case PickUp(amount) => Collect(f, amount).facility
    case PickUpAll => CollectAll(f).facility
    case SetModules(n) => f.(producer := Producer.UpdateProductionRate(f.producer, n))
    case SetEfficiency(e) => f.(producer := Producer.SetEfficiency(f.producer, e))
  }

  lemma ApplyKeepsCoherent(f: Facility, a: Action)
    requires Sound(f) && Admissible(f.producer.productionPerModule, a)
    ensures Sound(Apply(f, a))
    ensures Coherent(f) ==> Coherent(Apply(f, a))
    ensures Apply(f, a).producer.productionPerModule == f.producer.productionPerModule
  {
    match a
    case Frame(dt) => TickKeepsCoherent(f, dt);
    case DropOff(t, amount) => DeliverKeepsCoherent(f, t, amount);
    case PickUp(amount) => CollectKeepsCoherent(f, amount);
    case PickUpAll => CollectAllKeepsCoherent(f);
    case SetModules(n) =>
    case SetEfficiency(e) =>
  }

  predicate AllAdmissible(perModule: real, actions: seq<Action>) {
    forall i | 0 <= i < |actions| :: Admissible(perModule, actions[i])
  }

  lemma AllAdmissibleTail(perModule: real, actions: seq<Action>)
    requires |actions| > 0 && AllAdmissible(perModule, actions)
    ensures Admissible(perModule, actions[0]) && AllAdmissible(perModule, actions[1..])
  {
    forall i | 0 <= i < |actions[1..]| ensures Admissible(perModule, actions[1..][i]) {
      assert actions[1..][i] == actions[i + 1];
    }
  }

  /** Applies the actions in order. */
  function Run(f: Facility, actions: seq<Action>): (r: Facility)
    requires Sound(f) && AllAdmissible(f.producer.productionPerModule, actions)
    ensures Sound(r)
    ensures Coherent(f) ==> Coherent(r)
    decreases |actions|
  {
    if |actions| == 0 then f
    else
      ApplyKeepsCoherent(f, actions[0]);
      AllAdmissibleTail(f.producer.productionPerModule, actions);
      Run(Apply(f, actions[0]), actions[1..])
  }

  /** Every building reached from the corrected start of a valid
      configuration by admissible actions is coherent: every slot stays
      within [0, max] and a paused producer has its output latch set. */
  lemma ReachableIsCoherent(c: Config, actions: seq<Action>)
    requires ValidConfig(c) && AllAdmissible(c.productionPerModule, actions)
    ensures var f := Run(Initial(c), actions);
            && (f.input.Some? ==> AllBounded(f.input.value.requiredResources))
            && (f.output.Some? ==> Bounded(f.output.value.outputResource))
            && (f.output.Some? && f.producer.paused ==> f.output.value.wasFull)
  {
  }

  /** From the engine's own start, whatever the configured output stock,
      every slot stays within [0, max] and the output latch is only ever
      set at capacity. */
  lemma ReachableIsBounded(c: Config, actions: seq<Action>)
    requires ValidConfig(c) && AllAdmissible(c.productionPerModule, actions)
    ensures var f := Run(InitialAsWritten(c), actions);
            && (f.input.Some? ==> AllBounded(f.input.value.requiredResources))
            && (f.output.Some? ==> Bounded(f.output.value.outputResource))
            && (f.output.Some? && f.output.value.wasFull ==>
                  OutputBuffer.Current(f.output.value) == OutputBuffer.Capacity(f.output.value))
  {
  }

  // ---------------------------------------------------------------------
  // The logistics board over any sequence of actions

  /** The calls one action makes on the logistics board: only a frame runs
      the request machine. */
  function CallsOf(f: Facility, a: Action): seq<InputBuffer.LogisticsCall>
    requires InputReady(f)
  {
    if a.Frame? then Tick(f, a.dt).calls else []
  }

  /** Every call the actions make on the board, in order. */
  function RunCalls(f: Facility, actions: seq<Action>): seq<InputBuffer.LogisticsCall>
    requires Sound(f) && AllAdmissible(f.producer.productionPerModule, actions)
    decreases |actions|
  {
    if |actions| == 0 then []
    else
      ApplyKeepsCoherent(f, actions[0]);
      AllAdmissibleTail(f.producer.productionPerModule, actions);
      CallsOf(f, actions[0]) + RunCalls(Apply(f, actions[0]), actions[1..])
  }

  /** One action keeps the board mirroring the input buffer's active requests:
      production and deliveries never touch the request bookkeeping, and a
      frame's calls match its request updates. */
  lemma ApplyKeepsBoard(f: Facility, a: Action, board: InputBuffer.Board)
    requires InputReady(f) && f.input.Some? && InputBuffer.RequestsWellFormed(f.input.value)
    requires InputBuffer.BoardMirrors(board, f.input.value)
    ensures Apply(f, a).input.Some?
    ensures InputBuffer.BoardMirrors(InputBuffer.ApplyCalls(board, CallsOf(f, a)), Apply(f, a).input.value)
  {
    var inv := f.input.value;
    match a {
      case Frame(dt) =>
        var produced := Producer.Update(f.producer, f.input, f.output, dt);
        var mid := produced.input.value;
        assert mid.activeRequests == inv.activeRequests;
        InputBuffer.UpdateKeepsBoard(mid, board);
      case DropOff(t, amount) =>
        var added := InputBuffer.AddResource(inv, t, amount);
        assert added.inv.activeRequests == inv.activeRequests by {
          if InputBuffer.FirstSlotOf(inv.requiredResources, t).None? {
            assert added == InputBuffer.AddResult(inv, 0.0);
          }
        }
      case PickUp(amount) =>
      case PickUpAll =>
      case SetModules(n) =>
      case SetEfficiency(e) =>
    }
  }

  /** Over any admissible run, the board keeps holding exactly the buffer's
      active requests, each once. */
  lemma {:induction false} RunKeepsBoard(f: Facility, actions: seq<Action>, board: InputBuffer.Board)
    requires Sound(f) && AllAdmissible(f.producer.productionPerModule, actions)
    requires f.input.Some? && InputBuffer.BoardMirrors(board, f.input.value)
    ensures Run(f, actions).input.Some?
    ensures InputBuffer.BoardMirrors(InputBuffer.ApplyCalls(board, RunCalls(f, actions)), Run(f, actions).input.value)
    decreases |actions|
  {
    if |actions| > 0 {
      ApplyKeepsCoherent(f, actions[0]);
      AllAdmissibleTail(f.producer.productionPerModule, actions);
      var g := Apply(f, actions[0]);
      var first := CallsOf(f, actions[0]);
      ApplyKeepsBoard(f, actions[0], board);
      RunKeepsBoard(g, actions[1..], InputBuffer.ApplyCalls(board, first));
      InputBuffer.ApplyCallsAppend(board, first, RunCalls(g, actions[1..]));
    }
  }

  /** Starting from an empty board, every building reached from a valid
      configuration, by the engine's start or the corrected one, has exactly
      its active requests on the board, so no type is ever requested twice. */
  lemma ReachableBoardMirrors(c: Config, start: Facility, actions: seq<Action>)
    requires ValidConfig(c) && AllAdmissible(c.productionPerModule, actions) && c.inputSlots.Some?
    requires start == InitialAsWritten(c) || start == Initial(c)
    ensures var f := Run(start, actions);
            var board := InputBuffer.ApplyCalls(multiset{}, RunCalls(start, actions));
            && f.input.Some?
            && InputBuffer.BoardMirrors(board, f.input.value)
            && forall q1, q2 | board[q1] > 0 && board[q2] > 0 && q1.resourceType == q2.resourceType ::
                 q1 == q2 && board[q1] == 1
  {
    var f := Run(start, actions);
    var board := InputBuffer.ApplyCalls(multiset{}, RunCalls(start, actions));
    RunKeepsBoard(start, actions, multiset{});
    forall q1, q2 | board[q1] > 0 && board[q2] > 0 && q1.resourceType == q2.resourceType
      ensures q1 == q2 && board[q1] == 1
    {
      InputBuffer.AtMostOneRequestPerType(board, f.input.value, q1, q2);
    }
  }

  // ---------------------------------------------------------------------
  // A building whose output starts at capacity

  /** Paused with the output latch clear: no pick-up can raise "space
      available", so nothing will ever resume the producer. */
  predicate Stuck(f: Facility) {
    f.output.Some? && f.producer.paused && !f.output.value.wasFull
  }

  /** In every building reached from a valid configuration, a paused
      producer resumes on any pick-up that asks for something. */
  lemma ReachablePausedResumes(c: Config, actions: seq<Action>, amount: real)
    requires ValidConfig(c) && AllAdmissible(c.productionPerModule, actions)
    requires Run(Initial(c), actions).output.Some? && Run(Initial(c), actions).producer.paused
    requires amount > 0.0
    ensures !Collect(Run(Initial(c), actions), amount).facility.producer.paused
  {
    CollectResumesPausedProducer(Run(Initial(c), actions), amount);
  }

  /** A coherent building is never stuck. */
  lemma CoherentIsNotStuck(f: Facility)
    requires Coherent(f)
    ensures !Stuck(f)
  {
  }

  lemma ApplyKeepsInputReady(f: Facility, a: Action)
    requires InputReady(f)
    ensures InputReady(Apply(f, a))
    ensures Apply(f, a).input.Some? == f.input.Some?
    ensures f.input.Some? ==>
              var slots := f.input.value.requiredResources;
              var slots' := Apply(f, a).input.value.requiredResources;
              && |slots'| == |slots|
              && forall i | 0 <= i < |slots| :: slots'[i].maxAmount == slots[i].maxAmount
  {
    if a.DropOff? && f.input.Some? {
      var inv := f.input.value;
      var k := InputBuffer.FirstSlotOf(inv.requiredResources, a.resourceType);
      if k.Some? {
        var slots' := Apply(f, a).input.value.requiredResources;
        assert forall i | 0 <= i < |slots'| :: slots'[i].maxAmount == inv.requiredResources[i].maxAmount;
      }
    }
  }

  /** No action changes what the output buffer holds or how much it can hold. */
  lemma ApplyKeepsOutputType(f: Facility, a: Action)
    requires InputReady(f) && f.output.Some?
    ensures Apply(f, a).output.Some?
    ensures OutputBuffer.GetResourceType(Apply(f, a).output.value) == OutputBuffer.GetResourceType(f.output.value)
    ensures OutputBuffer.Capacity(Apply(f, a).output.value) == OutputBuffer.Capacity(f.output.value)
  {
  }

  /** The output's resource type and capacity are fixed over any sequence of actions. */
  lemma {:induction false} RunAnyKeepsOutputType(f: Facility, actions: seq<Action>)
    requires InputReady(f) && f.output.Some?
    ensures RunAny(f, actions).output.Some?
    ensures OutputBuffer.GetResourceType(RunAny(f, actions).output.value) == OutputBuffer.GetResourceType(f.output.value)
    ensures OutputBuffer.Capacity(RunAny(f, actions).output.value) == OutputBuffer.Capacity(f.output.value)
    decreases |actions|
  {
    if |actions| > 0 {
      ApplyKeepsInputReady(f, actions[0]);
      ApplyKeepsOutputType(f, actions[0]);
      RunAnyKeepsOutputType(Apply(f, actions[0]), actions[1..]);
    }
  }

  /** Once stuck, every action leaves the building stuck, and frames produce nothing. */
  lemma StuckStaysStuck(f: Facility, a: Action)
    requires InputReady(f) && Stuck(f)
    ensures Stuck(Apply(f, a))
    ensures a.Frame? ==> Apply(f, a).output == f.output
  {
  }

  /** Applies the actions in order, with no admissibility assumed. */
  function RunAny(f: Facility, actions: seq<Action>): (r: Facility)
    requires InputReady(f)
    ensures InputReady(r)
    decreases |actions|
  {
    if |actions| == 0 then f
    else
      ApplyKeepsInputReady(f, actions[0]);
      RunAny(Apply(f, actions[0]), actions[1..])
  }

  lemma {:induction false} StuckForever(f: Facility, actions: seq<Action>)
    requires InputReady(f) && Stuck(f)
    ensures Stuck(RunAny(f, actions))
    decreases |actions|
  {
    if |actions| > 0 {
      ApplyKeepsInputReady(f, actions[0]);
      StuckStaysStuck(f, actions[0]);
      StuckForever(Apply(f, actions[0]), actions[1..]);
    }
  }

  /** Iron in, planks out; the plank store is configured already full. */
  function StartsFull(): (c: Config)
    ensures ValidConfig(c)
  {
    Config(Some([Slot(ResourceType(0), 5.0, 10.0)]), 3, 0.25, 0.8, GridPos(0, 0), true,
           Some(Slot(ResourceType(1), 10.0, 10.0)), Some(Producer.ProductionData(1.0)),
           Producer.DefaultProductionPerModule)
  }

  /** As the engine starts it, the full building pauses on its first frame,
      a pick-up frees space without waking it, and it is stuck for good. */
  lemma StartFullStallsAsWritten()
    ensures var f1 := Tick(InitialAsWritten(StartsFull()), 1.0).facility;
            var f2 := Collect(f1, 5.0).facility;
            && f1.producer.paused
            && OutputBuffer.Current(f2.output.value) == 5.0
            && Stuck(f2)
            && forall actions: seq<Action> :: Stuck(RunAny(f2, actions))
  {
    var f1 := Tick(InitialAsWritten(StartsFull()), 1.0).facility;
    var f2 := Collect(f1, 5.0).facility;
    forall actions: seq<Action> ensures Stuck(RunAny(f2, actions)) {
      StuckForever(f2, actions);
    }
  }

  /** With the latch set from the configured stock, the same building pauses,
      wakes on the pick-up and produces again on the next frame. */
  lemma StartFullRecovers()
    ensures var f1 := Tick(Initial(StartsFull()), 1.0).facility;
            var t := Collect(f1, 5.0);
            var f3 := Tick(t.facility, 1.0).facility;
            && f1.producer.paused
            && t.signals == [OutputBuffer.SpaceAvailable]
            && !t.facility.producer.paused
            && OutputBuffer.Current(f3.output.value) == 6.0
            && f3.input.value.requiredResources[0].currentAmount == 4.0
  {
  }
}

=== FILE: input_buffer.dfy ===
/**
 The raw-material buffer of a production building (BuildingInputInventory).

 It holds the required slots, answers whether one production cycle can be
 paid for, pays for it, accepts deliveries clamped to headroom, and runs,
 per resource type, the two-state request machine NoRequest/Requesting with
 a hysteresis band between the request and fulfil thresholds.

 The logistics board is not modelled internally: every call the buffer makes
 on it is returned as a `LogisticsCall`, and `Board` below is a reference
 model of the board's outstanding requests used to state what those calls
 mean for it.
 */
module InputBuffer {
  import opened Storage

  /** What one production cycle costs from every slot (hard-coded as 1 in both the check and the consumption loop). */
  const CostPerCycle: real := 1.0

  /** A delivery request; its owner is the buffer that emits it. */
  datatype Request = Request(resourceType: ResourceType, priority: int, destination: GridPos)

  /** A call the buffer makes on the logistics board. */
  datatype LogisticsCall = CreateCall(request: Request) | FulfillCall(request: Request)

  datatype InputInventory = InputInventory(
    requiredResources: seq<Slot>,
    priority: int,
    requestThresholdPercent: real,
    fulfillThresholdPercent: real,
    activeRequests: map<ResourceType, Request>,
    isRequesting: bool,
    rootGridPosition: GridPos,
    hasLogistics: bool)

  /** The state after one step of the request machine, with the calls it made. */
  datatype TickResult = TickResult(inv: InputInventory, calls: seq<LogisticsCall>)

  /** A delivery's outcome: the new buffer and the amount actually accepted. */
  datatype AddResult = AddResult(inv: InputInventory, accepted: real)

  /** A freshly configured buffer: no request is active yet. */
  function Initial(slots: seq<Slot>, priority: int, requestThreshold: real, fulfillThreshold: real,
                   position: GridPos, hasLogistics: bool): (inv: InputInventory)
    ensures inv.activeRequests == map[] && !inv.isRequesting
    ensures RequestsWellFormed(inv)
  {
    InputInventory(slots, priority, requestThreshold, fulfillThreshold, map[], false, position, hasLogistics)
  }

  /** The request this buffer files for a slot: its own priority and position. */
  function RequestFor(inv: InputInventory, t: ResourceType): (q: Request)
    ensures q.resourceType == t && q.priority == inv.priority && q.destination == inv.rootGridPosition
  {
    Request(t, inv.priority, inv.rootGridPosition)
  }

  /** Every active request is keyed by its own type and was built by this buffer,
      and IsRequesting is the aggregate "some request is active". */
  predicate RequestsWellFormed(inv: InputInventory) {
    && (forall t | t in inv.activeRequests :: inv.activeRequests[t] == RequestFor(inv, t))
    && inv.isRequesting == (|inv.activeRequests| > 0)
  }

  function FillRatio(slot: Slot): (ratio: real)
    requires HasCapacity(slot)
    ensures Bounded(slot) ==> 0.0 <= ratio <= 1.0
    ensures ratio * slot.maxAmount == slot.currentAmount
  {
    slot.currentAmount / slot.maxAmount
  }

  // ---------------------------------------------------------------------
  // Request machine

  /** Files a request for the slot's type and records it as active. */
  function CreateRequest(inv: InputInventory, slot: Slot): (r: TickResult)
    ensures r.calls == [CreateCall(RequestFor(inv, slot.resourceType))]
    ensures slot.resourceType in r.inv.activeRequests
    ensures r.inv.activeRequests[slot.resourceType] == RequestFor(inv, slot.resourceType)
    ensures forall t | t != slot.resourceType ::
              (t in r.inv.activeRequests <==> t in inv.activeRequests)
              && (t in inv.activeRequests ==> r.inv.activeRequests[t] == inv.activeRequests[t])
    ensures r.inv.isRequesting
    ensures r.inv.isRequesting == (|r.inv.activeRequests| > 0)
    ensures r.inv == inv.(activeRequests := r.inv.activeRequests, isRequesting := r.inv.isRequesting)
  {
    var request := RequestFor(inv, slot.resourceType);
    var active := inv.activeRequests[slot.resourceType := request];
    TickResult(inv.(activeRequests := active, isRequesting := |active| > 0), [CreateCall(request)])
  }

  /** Retires the active request of the slot's type, if there is one. */
  function FulfillRequest(inv: InputInventory, slot: Slot): (r: TickResult)
    ensures slot.resourceType !in inv.activeRequests ==> r == TickResult(inv, [])
    ensures slot.resourceType in inv.activeRequests ==>
              && r.calls == [FulfillCall(inv.activeRequests[slot.resourceType])]
              && r.inv.activeRequests == inv.activeRequests - {slot.resourceType}
              && r.inv.isRequesting == (|r.inv.activeRequests| > 0)
    ensures slot.resourceType !in r.inv.activeRequests
    ensures r.inv == inv.(activeRequests := r.inv.activeRequests, isRequesting := r.inv.isRequesting)
  {
    if slot.resourceType in inv.activeRequests then
      var request := inv.activeRequests[slot.resourceType];
      var active := inv.activeRequests - {slot.resourceType};
      TickResult(inv.(activeRequests := active, isRequesting := |active| > 0), [FulfillCall(request)])
    else
      TickResult(inv, [])
  }

  /** One iteration of the per-slot loop: create below the request threshold,
      otherwise retire at or above the fulfil threshold. */
  function SlotStep(inv: InputInventory, slot: Slot): (r: TickResult)
    requires HasCapacity(slot)
    ensures |r.calls| <= 1
    ensures (|r.calls| == 1 && r.calls[0].CreateCall?) <==>
              (slot.resourceType !in inv.activeRequests && FillRatio(slot) <= inv.requestThresholdPercent)
    ensures (|r.calls| == 1 && r.calls[0].FulfillCall?) <==>
              (slot.resourceType in inv.activeRequests && FillRatio(slot) >= inv.fulfillThresholdPercent)
    ensures r.calls == [] ==> r.inv == inv
    ensures r.inv == inv.(activeRequests := r.inv.activeRequests, isRequesting := r.inv.isRequesting)
  {
    var isRequestActive := slot.resourceType in inv.activeRequests;
    var fillRatio := FillRatio(slot);
    if !isRequestActive && fillRatio <= inv.requestThresholdPercent then
      CreateRequest(inv, slot)
    else if isRequestActive && fillRatio >= inv.fulfillThresholdPercent then
      FulfillRequest(inv, slot)
    else
      TickResult(inv, [])
  }

  /** The foreach loop over `slots`, threading the request state through. */
  function UpdateSlots(inv: InputInventory, slots: seq<Slot>): (r: TickResult)
    requires AllHaveCapacity(slots)
    ensures r.inv == inv.(activeRequests := r.inv.activeRequests, isRequesting := r.inv.isRequesting)
    ensures r.calls == [] ==> r.inv == inv
    ensures r.calls != [] ==> r.inv.isRequesting == (|r.inv.activeRequests| > 0)
    ensures RequestsWellFormed(inv) ==> RequestsWellFormed(r.inv)
    ensures |r.calls| <= |slots|
    decreases |slots|
  {
    if |slots| == 0 then
      TickResult(inv, [])
    else
      var first := SlotStep(inv, slots[0]);
      var rest := UpdateSlots(first.inv, slots[1..]);
      TickResult(rest.inv, first.calls + rest.calls)
  }

  /** The buffer's per-frame Update: a no-op without a logistics board. */
  function Update(inv: InputInventory): (r: TickResult)
    requires inv.hasLogistics ==> AllHaveCapacity(inv.requiredResources)
    ensures !inv.hasLogistics ==> r == TickResult(inv, [])
    ensures r.inv.requiredResources == inv.requiredResources
    ensures r.calls != [] ==> r.inv.isRequesting == (|r.inv.activeRequests| > 0)
    ensures RequestsWellFormed(inv) ==> RequestsWellFormed(r.inv)
    ensures r.inv == inv.(activeRequests := r.inv.activeRequests, isRequesting := r.inv.isRequesting)
  {
    if !inv.hasLogistics then TickResult(inv, []) else UpdateSlots(inv, inv.requiredResources)
  }

  // ---------------------------------------------------------------------
  // Production cycle and deliveries

  function HasEnoughResources(inv: InputInventory): (b: bool)
    ensures b <==> forall i | 0 <= i < |inv.requiredResources| ::
                     inv.requiredResources[i].currentAmount >= CostPerCycle
  {
    HasEnoughFrom(inv.requiredResources)
  }

  /** The early-return loop of HasEnoughResources. */
  function HasEnoughFrom(slots: seq<Slot>): (b: bool)
    ensures b <==> forall i | 0 <= i < |slots| :: slots[i].currentAmount >= CostPerCycle
    decreases |slots|
  {
    if |slots| == 0 then true
    else if slots[0].currentAmount < CostPerCycle then false
    else HasEnoughFrom(slots[1..])
  }

  /** Subtracts one cycle's cost from every slot, unconditionally. */
  function ConsumeResources(inv: InputInventory): (r: InputInventory)
    ensures |r.requiredResources| == |inv.requiredResources|
    ensures forall i | 0 <= i < |inv.requiredResources| ::
              r.requiredResources[i] == inv.requiredResources[i].(
                currentAmount := inv.requiredResources[i].currentAmount - CostPerCycle)
    ensures r == inv.(requiredResources := r.requiredResources)
  {
    inv.(requiredResources := ConsumeFrom(inv.requiredResources))
  }

  function ConsumeFrom(slots: seq<Slot>): (r: seq<Slot>)
    ensures |r| == |slots|
    ensures forall i | 0 <= i < |slots| ::
              r[i] == slots[i].(currentAmount := slots[i].currentAmount - CostPerCycle)
    decreases |slots|
  {
    if |slots| == 0 then []
    else [slots[0].(currentAmount := slots[0].currentAmount - CostPerCycle)] + ConsumeFrom(slots[1..])
  }

  /** The index of the first slot holding `t`, if any (the foreach's early return). */
  function FirstSlotOf(slots: seq<Slot>, t: ResourceType): (k: Option<nat>)
    ensures k.None? <==> forall i | 0 <= i < |slots| :: slots[i].resourceType != t
    ensures k.Some? ==> k.value < |slots| && slots[k.value].resourceType == t
    ensures k.Some? ==> forall j | 0 <= j < k.value :: slots[j].resourceType != t
    decreases |slots|
  {
    if |slots| == 0 then None
    else if slots[0].resourceType == t then Some(0)
    else match FirstSlotOf(slots[1..], t)
      case None => None
      case Some(k) => Some(k + 1)
  }

  /** A cart's drop-off: clamps the delivery to the first matching slot's headroom. */
  function AddResource(inv: InputInventory, t: ResourceType, amount: real): (r: AddResult)
    ensures (forall i | 0 <= i < |inv.requiredResources| :: inv.requiredResources[i].resourceType != t)
              ==> r == AddResult(inv, 0.0)
    ensures FirstSlotOf(inv.requiredResources, t).Some? ==>
              var k := FirstSlotOf(inv.requiredResources, t).value;
              var slot := inv.requiredResources[k];
              var headroom := slot.maxAmount - slot.currentAmount;
              && r.accepted == (if headroom <= 0.0 then 0.0 else Min(amount, headroom))
              && r.inv == inv.(requiredResources :=
                   inv.requiredResources[k := slot.(currentAmount := slot.currentAmount + r.accepted)])
  {
    match FirstSlotOf(inv.requiredResources, t)
    case None => AddResult(inv, 0.0)
    case Some(k) =>
      var slot := inv.requiredResources[k];
      var spaceAvailable := slot.maxAmount - slot.currentAmount;
      if spaceAvailable <= 0.0 then
        AddResult(inv, 0.0)
      else
        var amountToAdd := Min(amount, spaceAvailable);
        AddResult(inv.(requiredResources :=
          inv.requiredResources[k := slot.(currentAmount := slot.currentAmount + amountToAdd)]), amountToAdd)
  }

  // ---------------------------------------------------------------------
  // The logistics board's view: at most one outstanding request per type

  /** How many times each request of this buffer is outstanding on the board. */
  type Board = multiset<Request>

  function ApplyCall(board: Board, c: LogisticsCall): Board {
    match c
    case CreateCall(q) => board + multiset{q}
    case FulfillCall(q) => board - multiset{q}
  }

  function ApplyCalls(board: Board, calls: seq<LogisticsCall>): Board
    decreases |calls|
  {
    if |calls| == 0 then board else ApplyCalls(ApplyCall(board, calls[0]), calls[1..])
  }

  /** The board holds exactly the buffer's active requests, each once. */
  ghost predicate BoardMirrors(board: Board, inv: InputInventory) {
    forall q :: board[q] == (if q.resourceType in inv.activeRequests && inv.activeRequests[q.resourceType] == q then 1 else 0)
  }

  lemma {:induction false} ApplyCallsAppend(board: Board, a: seq<LogisticsCall>, b: seq<LogisticsCall>)
    ensures ApplyCalls(board, a + b) == ApplyCalls(ApplyCalls(board, a), b)
    decreases |a|
  {
    if |a| == 0 {
      assert a + b == b;
    } else {
      assert (a + b)[0] == a[0];
      assert (a + b)[1..] == a[1..] + b;
      ApplyCallsAppend(ApplyCall(board, a[0]), a[1..], b);
    }
  }

  /** A mirrored board never holds two requests for one type, nor one request twice. */
  lemma AtMostOneRequestPerType(board: Board, inv: InputInventory, q1: Request, q2: Request)
    requires BoardMirrors(board, inv)
    requires board[q1] > 0 && board[q2] > 0 && q1.resourceType == q2.resourceType
    ensures q1 == q2 && board[q1] == 1
  {
    assert board[q1] == 1 && board[q2] == 1;
  }

  /** Filing a request for a type with none outstanding adds it to the board once. */
  lemma CreateKeepsBoard(inv: InputInventory, slot: Slot, board: Board)
    requires slot.resourceType !in inv.activeRequests
    requires RequestsWellFormed(inv) && BoardMirrors(board, inv)
    ensures BoardMirrors(ApplyCalls(board, CreateRequest(inv, slot).calls), CreateRequest(inv, slot).inv)
    ensures RequestsWellFormed(CreateRequest(inv, slot).inv)
  {
    var r := CreateRequest(inv, slot);
    var q := RequestFor(inv, slot.resourceType);
    assert ApplyCalls(board, r.calls) == board + multiset{q};
    forall q' ensures ApplyCalls(board, r.calls)[q'] ==
      (if q'.resourceType in r.inv.activeRequests && r.inv.activeRequests[q'.resourceType] == q' then 1 else 0)
    {
      if q' == q {
        assert board[q] == 0;
      }
    }
  }

  /** Retiring the outstanding request of a type removes its only copy from the board. */
  lemma FulfillKeepsBoard(inv: InputInventory, slot: Slot, board: Board)
    requires slot.resourceType in inv.activeRequests
    requires RequestsWellFormed(inv) && BoardMirrors(board, inv)
    ensures BoardMirrors(ApplyCalls(board, FulfillRequest(inv, slot).calls), FulfillRequest(inv, slot).inv)
    ensures RequestsWellFormed(FulfillRequest(inv, slot).inv)
  {
    var r := FulfillRequest(inv, slot);
    var q := inv.activeRequests[slot.resourceType];
    assert q.resourceType == slot.resourceType;
    assert ApplyCalls(board, r.calls) == board - multiset{q};
    forall q' ensures ApplyCalls(board, r.calls)[q'] ==
      (if q'.resourceType in r.inv.activeRequests && r.inv.activeRequests[q'.resourceType] == q' then 1 else 0)
    {
      if q' == q {
        assert board[q] == 1;
      }
    }
  }

  /** One step of the request machine keeps the board mirroring the buffer. */
  lemma SlotStepKeepsBoard(inv: InputInventory, slot: Slot, board: Board)
    requires HasCapacity(slot)
    requires RequestsWellFormed(inv) && BoardMirrors(board, inv)
    ensures BoardMirrors(ApplyCalls(board, SlotStep(inv, slot).calls), SlotStep(inv, slot).inv)
    ensures RequestsWellFormed(SlotStep(inv, slot).inv)
  {
    var t := slot.resourceType;
    if t !in inv.activeRequests && FillRatio(slot) <= inv.requestThresholdPercent {
      CreateKeepsBoard(inv, slot, board);
    } else if t in inv.activeRequests && FillRatio(slot) >= inv.fulfillThresholdPercent {
      FulfillKeepsBoard(inv, slot, board);
    } else {
      assert ApplyCalls(board, []) == board;
    }
  }

  lemma {:induction false} UpdateSlotsKeepsBoard(inv: InputInventory, slots: seq<Slot>, board: Board)
    requires AllHaveCapacity(slots)
    requires RequestsWellFormed(inv) && BoardMirrors(board, inv)
    ensures BoardMirrors(ApplyCalls(board, UpdateSlots(inv, slots).calls), UpdateSlots(inv, slots).inv)
    decreases |slots|
  {
    if |slots| > 0 {
      var first := SlotStep(inv, slots[0]);
      var rest := UpdateSlots(first.inv, slots[1..]);
      SlotStepKeepsBoard(inv, slots[0], board);
      var board' := ApplyCalls(board, first.calls);
      UpdateSlotsKeepsBoard(first.inv, slots[1..], board');
      ApplyCallsAppend(board, first.calls, rest.calls);
    }
  }

  /** The per-frame Update keeps the board holding exactly the active requests:
      a request is filed only for a type with none outstanding, and retiring
      removes the only one. */
  lemma UpdateKeepsBoard(inv: InputInventory, board: Board)
    requires inv.hasLogistics ==> AllHaveCapacity(inv.requiredResources)
    requires RequestsWellFormed(inv) && BoardMirrors(board, inv)
    ensures BoardMirrors(ApplyCalls(board, Update(inv).calls), Update(inv).inv)
    ensures RequestsWellFormed(Update(inv).inv)
  {
    if inv.hasLogistics {
      UpdateSlotsKeepsBoard(inv, inv.requiredResources, board);
    } else {
      assert ApplyCalls(board, []) == board;
    }
  }

  // ---------------------------------------------------------------------
  // Hysteresis

  /** A slot whose type is in a state the machine would not leave on this fill level. */
  predicate Settled(inv: InputInventory, slot: Slot)
    requires HasCapacity(slot)
  {
    if slot.resourceType in inv.activeRequests then FillRatio(slot) < inv.fulfillThresholdPercent
    else FillRatio(slot) > inv.requestThresholdPercent
  }

  predicate NotHeld(slots: seq<Slot>, t: ResourceType) {
    forall i | 0 <= i < |slots| :: slots[i].resourceType != t
  }

  /** The step emits nothing exactly when the slot is settled. */
  lemma QuietIffSettled(inv: InputInventory, slot: Slot)
    requires HasCapacity(slot)
    ensures SlotStep(inv, slot).calls == [] <==> Settled(inv, slot)
  {
  }

  /** With a strict band, one step always lands in a settled state. */
  lemma SlotStepSettles(inv: InputInventory, slot: Slot)
    requires HasCapacity(slot)
    requires inv.requestThresholdPercent < inv.fulfillThresholdPercent
    ensures Settled(SlotStep(inv, slot).inv, slot)
  {
  }

  /** The loop leaves the request state of types it does not visit alone. */
  lemma {:induction false} UpdateSlotsFrame(inv: InputInventory, slots: seq<Slot>, t: ResourceType)
    requires AllHaveCapacity(slots)
    requires NotHeld(slots, t)
    ensures t in UpdateSlots(inv, slots).inv.activeRequests <==> t in inv.activeRequests
    decreases |slots|
  {
    if |slots| > 0 {
      var first := SlotStep(inv, slots[0]);
      assert slots[0].resourceType != t;
      assert t in first.inv.activeRequests <==> t in inv.activeRequests;
      assert NotHeld(slots[1..], t) by {
        forall i | 0 <= i < |slots[1..]| ensures slots[1..][i].resourceType != t {
          assert slots[1..][i] == slots[i + 1];
        }
      }
      UpdateSlotsFrame(first.inv, slots[1..], t);
    }
  }

  lemma {:induction false} UpdateSlotsSettles(inv: InputInventory, slots: seq<Slot>)
    requires AllHaveCapacity(slots) && DistinctTypes(slots)
    requires inv.requestThresholdPercent < inv.fulfillThresholdPercent
    ensures forall i | 0 <= i < |slots| :: Settled(UpdateSlots(inv, slots).inv, slots[i])
    decreases |slots|
  {
    if |slots| > 0 {
      var first := SlotStep(inv, slots[0]);
      var r := UpdateSlots(inv, slots);
      SlotStepSettles(inv, slots[0]);
      assert DistinctTypes(slots[1..]) && AllHaveCapacity(slots[1..]);
      UpdateSlotsSettles(first.inv, slots[1..]);
      assert NotHeld(slots[1..], slots[0].resourceType);
      UpdateSlotsFrame(first.inv, slots[1..], slots[0].resourceType);
      forall i | 0 <= i < |slots| ensures Settled(r.inv, slots[i]) {
        if i > 0 {
          assert slots[i] == slots[1..][i - 1];
        }
      }
    }
  }

  lemma {:induction false} SettledSlotsAreQuiet(inv: InputInventory, slots: seq<Slot>)
    requires AllHaveCapacity(slots)
    requires forall i | 0 <= i < |slots| :: Settled(inv, slots[i])
    ensures UpdateSlots(inv, slots) == TickResult(inv, [])
    decreases |slots|
  {
    if |slots| > 0 {
      QuietIffSettled(inv, slots[0]);
      assert forall i | 0 <= i < |slots[1..]| :: slots[1..][i] == slots[i + 1];
      SettledSlotsAreQuiet(inv, slots[1..]);
    }
  }

  /** No oscillation: with distinct slot types and request threshold strictly
      below the fulfil threshold, a second Update on unchanged stock emits no
      call and changes nothing. */
  lemma UpdateIsIdempotent(inv: InputInventory)
    requires AllHaveCapacity(inv.requiredResources) && DistinctTypes(inv.requiredResources)
    requires inv.requestThresholdPercent < inv.fulfillThresholdPercent
    ensures Update(Update(inv).inv) == TickResult(Update(inv).inv, [])
  {
    var r := Update(inv);
    if inv.hasLogistics {
      UpdateSlotsSettles(inv, inv.requiredResources);
      SettledSlotsAreQuiet(r.inv, inv.requiredResources);
    }
  }

  // ---------------------------------------------------------------------
  // Stock bounds

  /** A non-negative delivery keeps every slot within [0, max] and accepts
      between nothing and the offered amount. */
  lemma AddResourceKeepsBounded(inv: InputInventory, t: ResourceType, amount: real)
    requires AllBounded(inv.requiredResources) && amount >= 0.0
    ensures AllBounded(AddResource(inv, t, amount).inv.requiredResources)
    ensures 0.0 <= AddResource(inv, t, amount).accepted <= amount
  {
    var r := AddResource(inv, t, amount);
    var k := FirstSlotOf(inv.requiredResources, t);
    if k.Some? {
      assert Bounded(r.inv.requiredResources[k.value]);
    }
  }

  /** Paying for a cycle after a successful check leaves every slot non-negative. */
  lemma ConsumeAfterCheckKeepsBounded(inv: InputInventory)
    requires AllBounded(inv.requiredResources) && HasEnoughResources(inv)
    ensures AllBounded(ConsumeResources(inv).requiredResources)
  {
  }

  // ---------------------------------------------------------------------
  // Scenarios

  /** A one-slot buffer with a board, holding `amount` of 100 units of iron. */
  function OneSlot(amount: real, requestThreshold: real, fulfillThreshold: real,
                   active: map<ResourceType, Request>): InputInventory
  {
    InputInventory([Slot(ResourceType(0), amount, 100.0)], 3, requestThreshold, fulfillThreshold,
                   active, |active| > 0, GridPos(0, 0), true)
  }

  /** Thresholds 0.25 / 0.80 on 100 units: dropping to 24 files one request,
      49 and 79 stay quiet, 81 retires it, and dropping to 24 again files a
      fresh one. */
  lemma HysteresisScenario()
    ensures var q := Request(ResourceType(0), 3, GridPos(0, 0));
            var held := map[ResourceType(0) := q];
            && Update(OneSlot(30.0, 0.25, 0.8, map[])).calls == []
            && Update(OneSlot(24.0, 0.25, 0.8, map[])) == TickResult(OneSlot(24.0, 0.25, 0.8, held), [CreateCall(q)])
            && Update(OneSlot(49.0, 0.25, 0.8, held)).calls == []
            && Update(OneSlot(79.0, 0.25, 0.8, held)).calls == []
            && Update(OneSlot(81.0, 0.25, 0.8, held)) == TickResult(OneSlot(81.0, 0.25, 0.8, map[]), [FulfillCall(q)])
            && var retired := Update(OneSlot(81.0, 0.25, 0.8, held)).inv;
               Update(retired.(requiredResources := [Slot(ResourceType(0), 24.0, 100.0)])).calls == [CreateCall(q)]
  {
    var q := Request(ResourceType(0), 3, GridPos(0, 0));
    var held := map[ResourceType(0) := q];
    assert |held| == 1;
    assert |held - {ResourceType(0)}| == 0;
  }

  /** Without a strict band the machine flips every frame on a steady stock:
      with both thresholds at 0.5 and the slot half full, a request is filed,
      retired, and filed again. */
  lemma EqualThresholdsOscillate()
    ensures var q := Request(ResourceType(0), 3, GridPos(0, 0));
            var held := map[ResourceType(0) := q];
            && Update(OneSlot(50.0, 0.5, 0.5, map[])).calls == [CreateCall(q)]
            && Update(OneSlot(50.0, 0.5, 0.5, map[])).inv == OneSlot(50.0, 0.5, 0.5, held)
            && Update(OneSlot(50.0, 0.5, 0.5, held)).calls == [FulfillCall(q)]
            && Update(OneSlot(50.0, 0.5, 0.5, held)).inv == OneSlot(50.0, 0.5, 0.5, map[])
  {
    var q := Request(ResourceType(0), 3, GridPos(0, 0));
    var held := map[ResourceType(0) := q];
    assert |held| == 1;
    assert |held - {ResourceType(0)}| == 0;
  }

  /** Two slots of one type share a single request entry: a nearly empty one
      and a nearly full one file and retire it within the same frame, every frame. */
  lemma DuplicateTypesChurn()
    ensures var q := Request(ResourceType(0), 3, GridPos(0, 0));
            var inv := InputInventory([Slot(ResourceType(0), 10.0, 100.0), Slot(ResourceType(0), 90.0, 100.0)],
                                      3, 0.25, 0.8, map[], false, GridPos(0, 0), true);
            Update(inv) == TickResult(inv, [CreateCall(q), FulfillCall(q)])
  {
    var q := Request(ResourceType(0), 3, GridPos(0, 0));
    var held := map[ResourceType(0) := q];
    assert |held| == 1;
    assert |held - {ResourceType(0)}| == 0;
  }
}

=== FILE: output_buffer.dfy ===
/**
 The finished-goods buffer of a production building (BuildingOutputInventory).

 One slot; adding clamps at capacity, taking clamps to the stock. A latch
 (`wasFull`) makes the "full" and "space available" notifications
 edge-triggered: each is returned at most once per transition, as a
 `Signal` in the operation's result instead of a broadcast event.
 */
module OutputBuffer {
  import opened Storage

  datatype Signal = BecameFull | SpaceAvailable

  datatype OutputInventory = OutputInventory(outputResource: Slot, wasFull: bool)

  datatype AddOutcome = AddOutcome(inv: OutputInventory, signals: seq<Signal>)

  datatype TakeOutcome = TakeOutcome(inv: OutputInventory, taken: real, signals: seq<Signal>)

  /** The buffer as the engine creates it: the latch starts cleared whatever
      the configured stock (see `InitialLatched` for the corrected start). */
  function Initial(slot: Slot): (o: OutputInventory)
    ensures o.outputResource == slot && !o.wasFull
  {
    OutputInventory(slot, false)
  }

  /** The corrected start: the latch agrees with the configured stock. */
  function InitialLatched(slot: Slot): (o: OutputInventory)
    ensures o.outputResource == slot
    ensures Bounded(slot) && HasCapacity(slot) ==> LatchExact(o)
  {
    OutputInventory(slot, slot.currentAmount >= slot.maxAmount)
  }

  function Current(o: OutputInventory): real {
    o.outputResource.currentAmount
  }

  function Capacity(o: OutputInventory): real {
    o.outputResource.maxAmount
  }

  /** The stock is in bounds and the latch is only set at capacity. */
  predicate Valid(o: OutputInventory) {
    Bounded(o.outputResource) && (o.wasFull ==> Current(o) == Capacity(o))
  }

  /** Valid, with positive capacity, and the latch set exactly at capacity. */
  predicate LatchExact(o: OutputInventory) {
    Valid(o) && HasCapacity(o.outputResource) && (o.wasFull <==> Current(o) == Capacity(o))
  }

  function HasSpace(o: OutputInventory): bool {
    Current(o) < Capacity(o)
  }

  function HasAtLeastOneUnit(o: OutputInventory): bool {
    Current(o) >= 1.0
  }

  function GetResourceType(o: OutputInventory): ResourceType {
    o.outputResource.resourceType
  }

  /** Adds produced goods, clamping at capacity; signals "full" on the
      transition into the latched state only. */
  function AddResource(o: OutputInventory, amount: real): (r: AddOutcome)
    ensures Current(r.inv) <= Capacity(r.inv)
    ensures Current(o) + amount >= Capacity(o) ==> Current(r.inv) == Capacity(o)
    ensures Current(o) + amount < Capacity(o) ==> Current(r.inv) == Current(o) + amount
    ensures r.inv.wasFull <==> o.wasFull || Current(o) + amount >= Capacity(o)
    ensures r.signals == [BecameFull] <==> !o.wasFull && r.inv.wasFull
    ensures r.signals == [] <==> !(!o.wasFull && r.inv.wasFull)
    ensures Capacity(r.inv) == Capacity(o) && GetResourceType(r.inv) == GetResourceType(o)
  {
    var total := Current(o) + amount;
    if total >= Capacity(o) then
      var full := o.(outputResource := o.outputResource.(currentAmount := Capacity(o)));
      if !o.wasFull then AddOutcome(full.(wasFull := true), [BecameFull])
      else AddOutcome(full, [])
    else
      AddOutcome(o.(outputResource := o.outputResource.(currentAmount := total)), [])
  }

  /** Hands over up to `amountToTake`; signals "space available" when a
      latched buffer drops below capacity, and clears the latch. */
  function TakeResource(o: OutputInventory, amountToTake: real): (r: TakeOutcome)
    ensures r.taken == Min(amountToTake, Current(o))
    ensures Current(r.inv) == Current(o) - r.taken
    ensures amountToTake >= 0.0 && Current(o) >= 0.0 ==> 0.0 <= r.taken && Current(r.inv) >= 0.0
    ensures r.inv.wasFull <==> o.wasFull && Current(r.inv) >= Capacity(o)
    ensures r.signals == [SpaceAvailable] <==> o.wasFull && !r.inv.wasFull
    ensures r.signals == [] <==> !(o.wasFull && !r.inv.wasFull)
    ensures Capacity(r.inv) == Capacity(o) && GetResourceType(r.inv) == GetResourceType(o)
  {
    var amountTaken := Min(amountToTake, Current(o));
    var drained := o.(outputResource := o.outputResource.(currentAmount := Current(o) - amountTaken));
    if o.wasFull && Current(drained) < Capacity(drained) then
      TakeOutcome(drained.(wasFull := false), amountTaken, [SpaceAvailable])
    else
      TakeOutcome(drained, amountTaken, [])
  }

  /** Takes the whole stock (the engine asks for float.MaxValue, which the
      minimum reduces to the stock itself). */
  function TakeAllResources(o: OutputInventory): (r: TakeOutcome)
    ensures r.taken == Current(o)
    ensures Current(r.inv) == 0.0
    ensures r.inv.wasFull <==> o.wasFull && Capacity(o) <= 0.0
  {
    TakeResource(o, Current(o))
  }

  // ---------------------------------------------------------------------
  // Stock and latch invariants

  /** Under the exact latch, "has space" is "not latched". */
  lemma HasSpaceIffUnlatched(o: OutputInventory)
    requires LatchExact(o)
    ensures HasSpace(o) <==> !o.wasFull
  {
  }

  /** A unit is on hand exactly when a one-unit pick-up gets a full unit. */
  lemma HasAtLeastOneUnitIffFullPickup(o: OutputInventory)
    ensures HasAtLeastOneUnit(o) <==> TakeResource(o, 1.0).taken == 1.0
  {
  }

  lemma AddResourceKeepsValid(o: OutputInventory, amount: real)
    requires Valid(o) && amount >= 0.0
    ensures Valid(AddResource(o, amount).inv)
    ensures LatchExact(o) ==> LatchExact(AddResource(o, amount).inv)
  {
  }

  lemma TakeResourceKeepsValid(o: OutputInventory, amountToTake: real)
    requires Valid(o) && amountToTake >= 0.0
    ensures Valid(TakeResource(o, amountToTake).inv)
    ensures LatchExact(o) ==> LatchExact(TakeResource(o, amountToTake).inv)
  {
  }

  /** Giving back what was just taken restores the stock and the latch. */
  lemma TakeThenAddRestores(o: OutputInventory, amount: real)
    requires LatchExact(o) && 0.0 <= amount <= Current(o)
    ensures var t := TakeResource(o, amount);
            && t.taken == amount
            && AddResource(t.inv, t.taken).inv == o
  {
  }

  // ---------------------------------------------------------------------
  // Edge-triggered signals over any sequence of operations

  datatype Op = Add(amount: real) | Take(amount: real) | TakeAll

  datatype RunOutcome = RunOutcome(inv: OutputInventory, trace: seq<Signal>)

  function Step(o: OutputInventory, op: Op): (r: RunOutcome)
    ensures |r.trace| <= 1
    ensures GetResourceType(r.inv) == GetResourceType(o) && Capacity(r.inv) == Capacity(o)
    ensures r.trace == [] <==> r.inv.wasFull == o.wasFull
    ensures r.trace != [] ==> r.trace[0] == (if o.wasFull then SpaceAvailable else BecameFull)
  {
    match op
    case Add(a) => var a := AddResource(o, a); RunOutcome(a.inv, a.signals)
    case Take(a) => var t := TakeResource(o, a); RunOutcome(t.inv, t.signals)
    case TakeAll => var t := TakeAllResources(o); RunOutcome(t.inv, t.signals)
  }

  function Run(o: OutputInventory, ops: seq<Op>): RunOutcome
    decreases |ops|
  {
    if |ops| == 0 then RunOutcome(o, [])
    else
      var first := Step(o, ops[0]);
      var rest := Run(first.inv, ops[1..]);
      RunOutcome(rest.inv, first.trace + rest.trace)
  }

  /** The trace alternates "full", "space available", "full", ... starting
      from the signal the latch state allows. */
  predicate Alternates(trace: seq<Signal>, latched: bool)
    decreases |trace|
  {
    |trace| == 0 ||
    (trace[0] == (if latched then SpaceAvailable else BecameFull) && Alternates(trace[1..], !latched))
  }

  predicate Nonnegative(op: Op) {
    match op
    case Add(a) => a >= 0.0
    case Take(a) => a >= 0.0
    case TakeAll => true
  }

  /** Each notification fires once per latch transition: over any run the
      signals alternate, and the latch flips once per signal. */
  lemma {:induction false} RunAlternates(o: OutputInventory, ops: seq<Op>)
    ensures Alternates(Run(o, ops).trace, o.wasFull)
    ensures Run(o, ops).inv.wasFull == (if |Run(o, ops).trace| % 2 == 0 then o.wasFull else !o.wasFull)
    decreases |ops|
  {
    if |ops| > 0 {
      var first := Step(o, ops[0]);
      var rest := Run(first.inv, ops[1..]);
      RunAlternates(first.inv, ops[1..]);
      if first.trace != [] {
        assert (first.trace + rest.trace)[1..] == rest.trace;
      } else {
        assert first.trace + rest.trace == rest.trace;
      }
    }
  }

  /** Non-negative operations keep the buffer valid (and the latch exact). */
  lemma {:induction false} RunKeepsValid(o: OutputInventory, ops: seq<Op>)
    requires Valid(o)
    requires forall i | 0 <= i < |ops| :: Nonnegative(ops[i])
    ensures Valid(Run(o, ops).inv)
    ensures LatchExact(o) ==> LatchExact(Run(o, ops).inv)
    decreases |ops|
  {
    if |ops| > 0 {
      var first := Step(o, ops[0]);
      match ops[0] {
        case Add(a) => AddResourceKeepsValid(o, a);
        case Take(a) => TakeResourceKeepsValid(o, a);
        case TakeAll => TakeResourceKeepsValid(o, Current(o));
      }
      assert forall i | 0 <= i < |ops[1..]| :: ops[1..][i] == ops[i + 1];
      RunKeepsValid(first.inv, ops[1..]);
    }
  }

  /** Adds to a full buffer stay silent, however many there are. */
  lemma {:induction false} AddsWhileFullAreSilent(o: OutputInventory, amounts: seq<real>)
    requires o.wasFull
    requires forall i | 0 <= i < |amounts| :: amounts[i] >= 0.0
    ensures Run(o, AddAll(amounts)).trace == []
    ensures Run(o, AddAll(amounts)).inv.wasFull
    decreases |amounts|
  {
    if |amounts| > 0 {
      assert AddAll(amounts)[1..] == AddAll(amounts[1..]);
      AddsWhileFullAreSilent(AddResource(o, amounts[0]).inv, amounts[1..]);
    }
  }

  function AddAll(amounts: seq<real>): (ops: seq<Op>)
    ensures |ops| == |amounts|
    ensures forall i | 0 <= i < |amounts| :: ops[i] == Add(amounts[i])
    decreases |amounts|
  {
    if |amounts| == 0 then [] else [Add(amounts[0])] + AddAll(amounts[1..])
  }

  /** The buffer's resource type is fixed: no operation changes what it holds. */
  lemma {:induction false} ResourceTypeIsStable(o: OutputInventory, ops: seq<Op>)
    ensures GetResourceType(Run(o, ops).inv) == GetResourceType(o)
    ensures Capacity(Run(o, ops).inv) == Capacity(o)
    decreases |ops|
  {
    if |ops| > 0 {
      ResourceTypeIsStable(Step(o, ops[0]).inv, ops[1..]);
    }
  }
}

=== FILE: producer.dfy ===
/**
 The production driver of a building (ResourceProducer).

 It owns the rate modifiers and the pause flag, and its per-frame Update
 pays one cycle from the input buffer and adds `rate * dt` to the output
 buffer. The output buffer's notifications reach it synchronously: the
 signals its AddResource returns are delivered to `OnSignals` within the
 same tick.

 Collaborators found missing at start-up are `None` for the producer's
 whole lifetime.
 */
module Producer {
  import opened Storage
  import InputBuffer
  import OutputBuffer

  datatype ProductionData = ProductionData(amountPerSecond: real)

  /** `paused` is the private flag that gates the tick; `isPausedProperty`
      is the public property, which nothing ever assigns. */
  datatype ProducerState = ProducerState(
    productionData: Option<ProductionData>,
    productionPerModule: real,
    currentModuleBonus: real,
    efficiencyModifier: real,
    paused: bool,
    isPausedProperty: bool)

  const DefaultProductionPerModule: real := 0.25

  /** A producer as configured: no module bonus, full efficiency, running. */
  function Initial(data: Option<ProductionData>, productionPerModule: real): (p: ProducerState)
    ensures p.currentModuleBonus == 1.0 && GetEfficiency(p) == 1.0
    ensures !p.paused && !p.isPausedProperty
  {
    ProducerState(data, productionPerModule, 1.0, 1.0, false, false)
  }

  /** Called when the number of attached modules changes. */
  function UpdateProductionRate(p: ProducerState, moduleCount: int): (r: ProducerState)
    ensures r == p.(currentModuleBonus := r.currentModuleBonus)
  {
    p.(currentModuleBonus := 1.0 + moduleCount as real * p.productionPerModule)
  }

  /** Sets the efficiency multiplier, unclamped. */
  function SetEfficiency(p: ProducerState, normalizedValue: real): (r: ProducerState)
    ensures r == p.(efficiencyModifier := r.efficiencyModifier)
  {
    p.(efficiencyModifier := normalizedValue)
  }

  function GetEfficiency(p: ProducerState): real {
    p.efficiencyModifier
  }

  /** Handler of the output's "full" notification (also used by the tick guard). */
  function PauseProduction(p: ProducerState): (r: ProducerState)
    ensures r.paused
    ensures r == p.(paused := r.paused)
  {
    if p.paused then p else p.(paused := true)
  }

  /** Handler of the output's "space available" notification. */
  function ResumeProduction(p: ProducerState): (r: ProducerState)
    ensures !r.paused
    ensures r == p.(paused := r.paused)
  {
    if !p.paused then p else p.(paused := false)
  }

  /** Delivers one output notification to its subscribed handler. */
  function OnSignal(p: ProducerState, s: OutputBuffer.Signal): (r: ProducerState)
    ensures r == p.(paused := r.paused)
    ensures r.paused <==> s == OutputBuffer.BecameFull
  {
    match s
    case BecameFull => PauseProduction(p)
    case SpaceAvailable => ResumeProduction(p)
  }

  /** Delivers notifications in order; the last one decides the flag. */
  function OnSignals(p: ProducerState, signals: seq<OutputBuffer.Signal>): (r: ProducerState)
    ensures r == p.(paused := r.paused)
    ensures |signals| == 0 ==> r == p
    ensures |signals| > 0 ==> r.paused == (signals[|signals| - 1] == OutputBuffer.BecameFull)
    decreases |signals|
  {
    if |signals| == 0 then p else OnSignals(OnSignal(p, signals[0]), signals[1..])
  }

  /** Units per second after the module bonus and the efficiency multiplier. */
  function EffectiveRate(p: ProducerState): real
    requires p.productionData.Some?
  {
    p.productionData.value.amountPerSecond * p.currentModuleBonus * p.efficiencyModifier
  }

  datatype TickOutcome = TickOutcome(
    producer: ProducerState,
    input: Option<InputBuffer.InputInventory>,
    output: Option<OutputBuffer.OutputInventory>,
    signals: seq<OutputBuffer.Signal>)

  /** Nothing can be produced this frame (paused or a collaborator missing). */
  predicate Idle(p: ProducerState, input: Option<InputBuffer.InputInventory>,
                 output: Option<OutputBuffer.OutputInventory>)
  {
    p.paused || input.None? || output.None? || p.productionData.None?
  }

  /** One frame of production, `dt` seconds long. */
  function Update(p: ProducerState, input: Option<InputBuffer.InputInventory>,
                  output: Option<OutputBuffer.OutputInventory>, dt: real): (r: TickOutcome)
    // paused or missing a collaborator: nothing happens
    ensures Idle(p, input, output) ==> r == TickOutcome(p, input, output, [])
    // input-starved: nothing happens, and in particular no pause
    ensures !Idle(p, input, output) && !InputBuffer.HasEnoughResources(input.value) ==>
              r == TickOutcome(p, input, output, [])
    // output full: pause, consume nothing
    ensures !Idle(p, input, output) && InputBuffer.HasEnoughResources(input.value)
            && !OutputBuffer.HasSpace(output.value) ==>
              r == TickOutcome(p.(paused := true), input, output, [])
    // otherwise: one cycle consumed from every slot, rate * dt produced
    ensures !Idle(p, input, output) && InputBuffer.HasEnoughResources(input.value)
            && OutputBuffer.HasSpace(output.value) ==>
              var produced := EffectiveRate(p) * dt;
              var before := OutputBuffer.Current(output.value);
              && r.input.Some? && r.output.Some?
              && r.input.value == InputBuffer.ConsumeResources(input.value)
              && OutputBuffer.Current(r.output.value) ==
                   (if before + produced >= OutputBuffer.Capacity(output.value)
                    then OutputBuffer.Capacity(output.value) else before + produced)
              && OutputBuffer.Capacity(r.output.value) == OutputBuffer.Capacity(output.value)
              && OutputBuffer.GetResourceType(r.output.value) == OutputBuffer.GetResourceType(output.value)
              && (r.output.value.wasFull <==> output.value.wasFull || before + produced >= OutputBuffer.Capacity(output.value))
              && (r.signals == [OutputBuffer.BecameFull] <==>
                    !output.value.wasFull && before + produced >= OutputBuffer.Capacity(output.value))
              && (r.signals == [] <==> !(!output.value.wasFull && before + produced >= OutputBuffer.Capacity(output.value)))
              && r.producer == p.(paused := r.producer.paused)
              && (r.producer.paused <==> r.signals == [OutputBuffer.BecameFull])
    // the flag is never cleared by the tick, and set only by the guard or a "full" signal
    ensures p.paused ==> r.producer.paused
    ensures !p.paused && r.producer.paused ==>
              r.signals == [OutputBuffer.BecameFull] || !OutputBuffer.HasSpace(output.value)
    ensures r.producer.isPausedProperty == p.isPausedProperty
  {
    if Idle(p, input, output) then
      TickOutcome(p, input, output, [])
    else if !InputBuffer.HasEnoughResources(input.value) then
      TickOutcome(p, input, output, [])
    else if !OutputBuffer.HasSpace(output.value) then
      TickOutcome(PauseProduction(p), input, output, [])
    else
      var consumed := InputBuffer.ConsumeResources(input.value);
      var finalProduction := EffectiveRate(p);
      var added := OutputBuffer.AddResource(output.value, finalProduction * dt);
      TickOutcome(OnSignals(p, added.signals), Some(consumed), Some(added.inv), added.signals)
  }

  // ---------------------------------------------------------------------
  // Modifiers

  /** The bonus depends on the latest module count only, and is 1 plus the
      per-module rate for each module. */
  lemma ModuleBonusFromLatestCount(p: ProducerState, earlier: int, moduleCount: int)
    ensures UpdateProductionRate(UpdateProductionRate(p, earlier), moduleCount) == UpdateProductionRate(p, moduleCount)
    ensures UpdateProductionRate(p, 0).currentModuleBonus == 1.0
    ensures UpdateProductionRate(p, moduleCount + 1).currentModuleBonus ==
            UpdateProductionRate(p, moduleCount).currentModuleBonus + p.productionPerModule
  {
  }

  /** Reading the efficiency returns the last value set, with no clamping. */
  lemma EfficiencyRoundTrip(p: ProducerState, earlier: real, value: real)
    ensures GetEfficiency(SetEfficiency(p, value)) == value
    ensures SetEfficiency(SetEfficiency(p, earlier), value) == SetEfficiency(p, value)
    ensures SetEfficiency(p, GetEfficiency(p)) == p
  {
  }

  /** Rate composition: 10 units/s with two 0.25 modules at half efficiency is 7.5 units/s. */
  lemma RateCompositionExample()
    ensures var p := SetEfficiency(UpdateProductionRate(Initial(Some(ProductionData(10.0)), 0.25), 2), 0.5);
            EffectiveRate(p) == 7.5
  {
  }

  /** With non-negative base, per-module rate and efficiency, more modules never slow production. */
  lemma RateMonotoneInModules(p: ProducerState, m: nat, n: nat)
    requires p.productionData.Some? && p.productionData.value.amountPerSecond >= 0.0
    requires p.productionPerModule >= 0.0 && p.efficiencyModifier >= 0.0
    requires m <= n
    ensures EffectiveRate(UpdateProductionRate(p, m)) <= EffectiveRate(UpdateProductionRate(p, n))
  {
    var a := p.productionData.value.amountPerSecond;
    var e := p.efficiencyModifier;
    var bm := UpdateProductionRate(p, m).currentModuleBonus;
    var bn := UpdateProductionRate(p, n).currentModuleBonus;
    assert bm <= bn by {
      assert (n - m) as real * p.productionPerModule >= 0.0;
    }
    assert a * e >= 0.0;
    assert a * bm * e == (a * e) * bm;
    assert a * bn * e == (a * e) * bn;
  }

  // ---------------------------------------------------------------------
  // Pause flag

  lemma PauseResumeIdempotent(p: ProducerState)
    ensures PauseProduction(PauseProduction(p)) == PauseProduction(p)
    ensures ResumeProduction(ResumeProduction(p)) == ResumeProduction(p)
    ensures p.paused ==> PauseProduction(p) == p
    ensures !p.paused ==> ResumeProduction(p) == p
  {
  }

  /** The public IsPaused property stays false through every operation:
      none of them writes it, whatever the private flag does. */
  lemma PublicPropertyNeverAssigned(p: ProducerState, input: Option<InputBuffer.InputInventory>,
                                    output: Option<OutputBuffer.OutputInventory>, dt: real,
                                    signals: seq<OutputBuffer.Signal>, n: int, e: real)
    requires !p.isPausedProperty
    ensures !Update(p, input, output, dt).producer.isPausedProperty
    ensures !OnSignals(p, signals).isPausedProperty
    ensures !UpdateProductionRate(p, n).isPausedProperty
    ensures !SetEfficiency(p, e).isPausedProperty
  {
  }
}

=== FILE: storage.dfy ===
/**
 Shared vocabulary of the production economy: resource kinds, grid
 coordinates, the bounded storage slot, and a few helpers on amounts.

 Amounts are exact `real`s; the single-precision rounding of the game
 engine is not modelled.
 */
module Storage {

  /** A kind of resource (iron, coal, ...). The concrete enumeration is
      irrelevant to the behaviour, so kinds are identified by a number. */
  datatype ResourceType = ResourceType(id: nat)

  /** The opaque grid coordinate of a building's root cell. */
  datatype GridPos = GridPos(x: int, y: int)

  /** A bounded quantity of one resource type (the engine's StorageData). */
  datatype Slot = Slot(resourceType: ResourceType, currentAmount: real, maxAmount: real)

  datatype Option<+T> = None | Some(value: T)

  /** Mathf.Min on exact amounts. */
  function Min(a: real, b: real): (m: real)
    ensures m <= a && m <= b
    ensures m == a || m == b
  {
    if a <= b then a else b
  }

  /** The slot bound `0 <= currentAmount <= maxAmount`, which the code keeps only on some paths. */
  predicate Bounded(s: Slot) {
    0.0 <= s.currentAmount <= s.maxAmount
  }

  /** The fill ratio is defined only for a positive capacity. */
  predicate HasCapacity(s: Slot) {
    s.maxAmount > 0.0
  }

  predicate AllBounded(slots: seq<Slot>) {
    forall i | 0 <= i < |slots| :: Bounded(slots[i])
  }

  predicate AllHaveCapacity(slots: seq<Slot>) {
    forall i | 0 <= i < |slots| :: HasCapacity(slots[i])
  }

  /** No two slots of one buffer hold the same resource type. */
  predicate DistinctTypes(slots: seq<Slot>) {
    forall i, j | 0 <= i < j < |slots| :: slots[i].resourceType != slots[j].resourceType
  }
}
